=== FILE: README.md ===
# Barrager lane scheduler, modelled in Dafny

Barrager is a browser library for "danmaku" comments: short HTML fragments
that cross a container from right to left. The container is split into
horizontal lanes ("tracks"). Each lane is either `idle` or `running` and has
a list of the fragments currently placed in it. The model covers the logic
that decides where, and whether, a fragment goes:

- **Setup** (`Barragers`): the selector's leading `.`, the merge of the
  defaults with the constructor options, the container lookup and its errors,
  and the lane count `floor(height / trackHeight)`. That count becomes a
  `RangeError` when it is not a valid array length.
- **Options** (`Opts`): object-spread merges. A key present with the value
  `undefined` still overrides, so `Prop` tells *absent* apart from
  *undefined*.
- **Motion** (`Motion`): the transit duration, read from the push's own
  options (the instance options overridden by the call-site options): the
  lane's entry in `tractArray`, then `speed`, then the `duration` string
  without its unit. Also
  `checkTrack`, which decides whether a running lane may take a follower. It
  runs on JavaScript numbers (`Js.Number`: NaN and the infinities, with
  comparisons against NaN false), because a zero or unreadable duration
  reaches the comparisons in the source. The width of the last measured
  fragment is always set when the test runs: every lane is empty until a
  first fragment has been measured, and the registry invariant records this
  (`Registry.TestedLaneWasMeasured`).
- **Registry** (`Registry`): the lane search `getIdleTrackIndex`. It claims
  a random idle lane; if no lane is idle, it reuses the first non-empty lane
  whose newest fragment passes `checkTrack`. Also the `transitionend`
  release and `getBarragerList`.
- **Scheduling** (`Schedule`): `push` and the queue drain in `render`, as
  two mutually recursive functions on the registry value.
- **The class** (`Barragers.Barrager`): `tracks` and `barrager` are arrays
  the methods update in place. `userBarragers`, `isAllPaused` and the width
  of the last measured fragment are fields. Each method is proved equal to
  the function above that describes it.

The registry invariant has three parts: a lane is running exactly when its
list is non-empty; every queued entry carries options already merged over the
instance options; and while no fragment has been measured, every lane is
empty. Every operation is proved to keep it.

What the page reports is passed in as an `Env`: the clock reading used as the
fragment id, and for each lane search a `Probe` (the random number, the
rectangle of each lane's newest fragment, and the measured width of the new
fragment). A nested push made by the drain reads the next probe.

Where the library's documented behaviour and `src/index.ts` differ, this
model follows the code. The one exception is the defect under "## Findings":
the class's `push` and `Schedule.PushSpec` use the corrected placement, and
the code as written is modelled by `Schedule.PlaceAsWritten`. Otherwise:

- The fallback reuse of running lanes (`src/index.ts:214-223`) is active.
- A drained entry that again finds no lane is pushed with priority `high`,
  so it goes back at the tail of the queue (`src/index.ts:266-268`, with
  149-150). It is not dropped.
- Only a placement drains the queue. A release never does.
- A release marks the lane idle when its list is empty after the filter
  (`src/index.ts:281-285`).
- `checkTrack` always reads the instance options and the width of the last
  fragment measured, never the options or width of the push that calls it.

## Model

| member | source | states |
|---|---|---|
| Barragers.NormalizeSelector | src/index.ts:91-93 | the selector starts with `.`; one that already did is unchanged; otherwise `.` is prepended to the name |
| Barragers.NormalizeSelectorIdempotent | src/index.ts:91-93 | normalising a normalised selector changes nothing |
| Barragers.Setup | src/index.ts:89-124 | setup fails only with an invalid selector, a missing container, a target that is not an element, or an invalid array length; an invalid or unmatched normalised selector gives exactly that error; a successful setup carries the defaults merged with the constructor options, an element target's own rectangle, and the lane count `LaneCount` gives for the surface; on a found surface, setup succeeds exactly when that lane count does |
| Barragers.SetupWithDefaultLaneHeight | src/index.ts:119-124 | with the default lane height of 50, setup on a found surface of height 0 to 10^6 succeeds with floor(height / 50) lanes |
| Barragers.SetupFitsLanes | src/index.ts:106-124 | a successful setup measured the element the normalised selector found; with a positive lane height, n lanes satisfy n·h ≤ height < (n+1)·h |
| Barragers.Barrager.constructor | src/index.ts:119-124 | every lane is idle with an empty list, nothing is queued, the invariant holds |
| Barragers.Barrager.Create | src/index.ts:89-124 | construction throws exactly the setup error (invalid selector, container missing, not an element, invalid array length); otherwise it yields a fresh valid instance with the merged options and the initial registry |
| Barragers.Barrager.GetIdleTrackIndex | src/index.ts:200-225 | the index returned and the new lane statuses are those of the lane search on the old registry: only a claimed lane is set running |
| Barragers.Barrager.IdleLanes | src/index.ts:201-206 | the lanes collected by the status loop are exactly the idle lanes, in lane order |
| Barragers.Barrager.FirstReusableLane | src/index.ts:214-224 | the loop over the lanes returns what the lane scan returns on the current registry: the lowest non-empty lane whose newest fragment passes `checkTrack`, -1 when none does, or the first exception `checkTrack` throws |
| Barragers.Barrager.Push | src/index.ts:140-164 | the new registry and the returned id/null/exception are those of the (corrected) push function on the old registry; the invariant is kept; the pause flag is untouched |
| Barragers.Barrager.PlaceAndDrain | src/index.ts:152-161 | once a lane is chosen and the duration is known, appending the fragment, recording the width and draining once leaves the registry the drain function gives on the placed board, and returns the fragment's id or the drain's exception; the invariant is kept |
| Barragers.Barrager.Render | src/index.ts:260-270 | the new registry and the nested exception are those of the drain function; the invariant is kept |
| Barragers.Barrager.TransitionEnd | src/index.ts:279-287 | the new registry is the release of the fragment's id from its lane; the invariant is kept |
| Barragers.Barrager.GetBarragerList | src/index.ts:290-292 | the list holds every fragment of every lane, each exactly as often as the lanes do, and nothing else |
| Barragers.Barrager.Pause | src/index.ts:315-320 | the global flag is set when no element is given and left alone otherwise |
| Barragers.Barrager.Resume | src/index.ts:321-324 | the global flag is cleared whatever the argument |
| Opts.Merge | src/index.ts:141-144 | merging the empty object on either side (the default `opts = {}` in particular) leaves the options unchanged |
| Opts.MergeLaterWins | src/index.ts:95-98 | for each of the six keys, a key the later object carries, even as undefined, wins; otherwise the earlier value is kept |
| Opts.MergeAssociative | src/index.ts:141-144 | defaults, instance options and call-site options compose in any grouping |
| Opts.MergeAbsorbs | src/index.ts:266-268 | re-merging a queued entry's stored options over the instance options gives the stored options back |
| Opts.MergeOverDefaultsIsComplete | src/index.ts:35-44 | over the defaults, lane height, lane speeds, duration and speed are never absent |
| Js.ToNumber | src/index.ts:179 | the empty string reads as 0, a string of digits as its decimal value; the result is never infinite, and is never negative without a leading minus |
| Motion.Duration | src/index.ts:174-180 | the duration fails, with the missing-duration error, exactly when no speed is truthy and the duration string is not set; with a speed it is finite; it is never infinite |
| Motion.CheckTrack | src/index.ts:227-258 | an overhanging newest fragment refuses the lane; in speed mode the verdict is exactly "fully entered"; the only exception is the missing lane-speed list, and only outside speed mode |
| Motion.DropLast | src/index.ts:179 | the string without its last character, or empty for the empty string |
| Motion.SpeedPrecedence | src/index.ts:175 | in the push's merged options, a truthy lane speed wins; otherwise a truthy `speed`; the duration string is used exactly when neither is truthy |
| Motion.DurationCoversDistance | src/index.ts:176-177 | with a speed, duration × speed equals surface width plus fragment width |
| Motion.DurationPositive | src/index.ts:176-177 | a positive speed over a positive distance gives a positive duration |
| Motion.DurationIgnoresDistance | src/index.ts:178-180 | without a speed the duration does not depend on the geometry |
| Motion.DurationMissingThrows | src/index.ts:179 | without a speed and with no duration string, computing the duration throws |
| Motion.DurationInSeconds | src/index.ts:179 | without a speed, a duration written as a whole number and a unit character is that many seconds |
| Motion.DefaultDurationIsTenSeconds | src/index.ts:41 | the default `'10s'` is read as 10 |
| Motion.CheckTrackRefusesOverhang | src/index.ts:230-232 | a newest fragment sticking out past the right edge blocks the lane |
| Motion.CheckTrackSpeedMode | src/index.ts:236-237 | with a truthy instance speed or a non-empty lane-speed list, every fully entered newest fragment frees the lane |
| Motion.CheckTrackThrows | src/index.ts:236 | the test throws exactly when the fragment has fully entered, the speed is falsy and the lane-speed list is undefined |
| Motion.CheckTrackDurationMode | src/index.ts:238-257 | in the duration branch, the lane is free iff the follower is no faster, or it will not cross the surface before the newest fragment's right edge reaches the left edge |
| Motion.CheckTrackNarrowFollower | src/index.ts:241-248 | in the duration branch, a last measured width no larger than the newest fragment's width always frees the lane |
| Js.NatToStringRoundTrip | src/index.ts:179 | unary `+` reads back the decimal digits of every whole number as that number |
| Registry.LaneCount | src/index.ts:122-123 | the only error is the invalid array length; with a falsy lane height the count is the height; with a truthy one it is the whole part of height over lane height, and it succeeds exactly when that whole part is from 0 to 2^32-1 |
| Registry.LaneCountFitsSurface | src/index.ts:122 | with a positive lane height, the lanes fill the height without exceeding it |
| Registry.LaneCountWithoutTrackHeight | src/index.ts:122-123 | with a falsy lane height, the height itself is the lane count, and construction fails iff it is not a whole number from 0 to 2^32-1 |
| Registry.TestedLaneWasMeasured | src/index.ts:214-218 | under the invariant, a lane the fallback loop tests has a fragment, so the last measured width is set |
| Registry.InitialBoard | src/index.ts:123-124 | n lanes, all idle and empty, nothing queued, invariant holds |
| Registry.ReadyLanes | src/index.ts:205 | exactly the idle lanes, in increasing order |
| Registry.Scan | src/index.ts:214-224 | the lowest reusable lane with every earlier lane skipped, or -1 when every lane is skipped, or the exception of a throwing test |
| Registry.FindLane | src/index.ts:200-225 | a claimed lane was idle; a reused lane is non-empty and passes the test; whenever some lane is idle an idle lane is claimed |
| Registry.EveryIdleLaneCanBeClaimed | src/index.ts:208-212 | each idle lane is the one claimed for some random number |
| Registry.FindLaneWithoutIdleLane | src/index.ts:214-224 | with no idle lane, the search changes no status and returns the first reusable lane, or -1 when all are skipped |
| Registry.Without | src/index.ts:281 | the filter keeps only fragments with another id, all taken from the list |
| Registry.WithoutKeepsOthers | src/index.ts:281 | each fragment with another id survives as often as it occurs |
| Registry.WithoutKeepsOrder | src/index.ts:281 | the filter distributes over concatenation, so survivors keep their order |
| Registry.WithoutNoMatch | src/index.ts:281 | a list with no fragment of that id is unchanged |
| Registry.WithoutIdempotent | src/index.ts:281 | filtering twice is filtering once |
| Registry.Release | src/index.ts:279-287 | the lane keeps the filtered list and is idle when it is left empty; other lanes, the lane count, the queue and the measured width are unchanged |
| Registry.ReleaseKeepsInvariant | src/index.ts:281-285 | the lane keeps only fragments with another id, turns idle iff it is left empty, other lanes unchanged, invariant kept |
| Registry.ReleaseIdempotent | src/index.ts:281-285 | a second release of the same fragment changes nothing |
| Registry.Flatten | src/index.ts:291 | the fold keeps its starting list at the end, and the last lane's fragments form a prefix of the result |
| Registry.FlattenAppendLane | src/index.ts:291 | a later lane's fragments come before those of earlier lanes |
| Registry.FlattenContents | src/index.ts:291 | the flattened list is, as a multiset, all fragments of all lanes |
| Registry.FlattenMembership | src/index.ts:291 | a fragment is listed iff some lane holds it |
| Schedule.Place | src/index.ts:152-158 | corrected placement: fails iff the duration cannot be computed; otherwise appends the new fragment to the chosen lane only, claims it if it was idle, records the width and leaves the queue |
| Schedule.PlaceKeepsInvariant | src/index.ts:152-158 | placing in an idle or non-empty lane keeps the invariant |
| Schedule.PlaceAsWritten | src/index.ts:166-180 | the placement in the source's order keeps lanes and statuses aligned |
| Schedule.PlaceAgreesWithSource | src/index.ts:166-180 | whenever the duration can be computed, the corrected and the as-written placement agree |
| Schedule.PlaceAsWrittenStrandsLane | src/index.ts:208-212 | the counterexample: the lane is claimed, the push throws, and the lane stays running with an empty list |
| Schedule.PushSpec | src/index.ts:140-164 | a (corrected) push keeps lanes and statuses aligned and the lane count, adds at most one queue entry, and returns the clock reading as the id of what it places |
| Schedule.RenderSpec | src/index.ts:260-270 | a drain keeps lanes and statuses aligned and the lane count, and never lengthens the queue |
| Schedule.PushKeepsInvariant | src/index.ts:140-164 | every corrected push, drains included, keeps the invariant and the lane count |
| Schedule.RenderKeepsInvariant | src/index.ts:266-269 | every drain keeps the invariant and the lane count |
| Schedule.PushQueue | src/index.ts:148-151 | only a high-priority push that finds no lane appends its entry, and then it returns null; any other push only drains from the head, possibly re-queuing the last entry taken |
| Schedule.RenderDrains | src/index.ts:266-269 | after a drain, the queue is a suffix of the old one, possibly followed by the last entry taken; a non-empty queue always loses at least its head |
| Schedule.RenderIdle | src/index.ts:266 | with nothing queued, the drain changes nothing |
| Schedule.RenderPlacesHead | src/index.ts:266-268 | the drain re-pushes the head: when the head finds a lane with a computable duration, its fragment is appended to that lane, and with nothing queued behind the head the drain reports no exception |
| Schedule.RenderRequeuesHead | src/index.ts:266-268 | a head that again finds no lane goes back at the tail of the queue (priority `high`, lines 149-150), with its options merged again, which for a resolved queue are its own; nothing else changes |
| Schedule.DrainNeverLengthens | src/index.ts:266-269 | draining never lengthens the queue or adds an entry |
| Schedule.PushPlacesAtEnd | src/index.ts:152-161 | a push that places returns the clock id of a fragment appended to the lane the search chose; every push only appends to lane lists and never stops a running lane |
| Schedule.RenderOnlyAppends | src/index.ts:266-269 | a drain only appends to lane lists and never stops a running lane |
| Schedule.PushPlaces | src/index.ts:152-161 | a push that finds a lane with a computable duration appends its fragment, with the clock id, to that lane; a claimed lane stays running; any success returns that id; with an empty queue the push returns exactly that id and leaves exactly the placed board; only a push with something queued can throw |
| Schedule.PushWithoutLane | src/index.ts:148-163 | with no lane, a push returns null; it appends a high-priority entry with its merged options and drops a normal one |
| Schedule.PushFailsCleanly | src/index.ts:146-153 | a corrected push that throws before placing leaves the registry exactly as it was |

## Left out

- Rendering and DOM work: the offscreen layer, `innerHTML`, styles, `top`/`left` offsets, the CSS transition, `requestAnimationFrame`, positioning the container and `initCSS`/`initAnimate`. The model keeps only what decides lanes and ids.
- `onStart`/`onEnd` callbacks and the `transitionstart` listener: the model assumes both callbacks return normally and never call back into the instance. Both receive the instance (`src/index.ts:276`, `src/index.ts:280`), so a callback could push before the release runs. `onEnd` runs before the release filter (`src/index.ts:280-285`), so an `onEnd` that throws would skip the release and leave the lane running.
- Barragers.Barrager.Push: listeners are not modelled. A nested push throws out of `render` before the outer push reaches `addEvent` (`src/index.ts:159-160`), so that outer fragment never gets its release listener; the model keeps its fragment in the lane but has no listener to lose.
- Barragers.Barrager.TransitionEnd: it is a method that any caller may invoke for any lane and id. In the source only the listener of a placed fragment calls it, once.
- Barragers.Barrager.Push: it is the corrected push of "## Findings". When the duration cannot be computed it hands a claimed lane back and does not record the width. Nested pushes from the drain behave the same way. The source leaves the lane running and the width written; only `Schedule.PlaceAsWritten` models that.
- Barragers.Barrager.Create: which selectors are valid CSS is decided by the `query` argument. The CSS selector grammar is not modelled.
- `getRandom`: it is replaced by `ready[random % |ready|]` over a free random number. Its `parseInt(String(x))` quirk on exponent notation is not modelled.
- `Date.now()`: it is the `now` field of `Env`, shared by every placement of one synchronous push. Ids can therefore repeat, and a release removes every fragment with that id.
- JavaScript numbers: signed zero, overflow and rounding are not modelled; finite values are exact reals.
- Unary `+`: only the empty string and signed decimal literals with an optional fraction are read. Whitespace trimming, exponents, hex and `Infinity` are taken as NaN.
- Motion.DropLast: it drops one character. `slice(0, -1)` drops one UTF-16 code unit, so the two differ when the last character lies outside the Basic Multilingual Plane.
- Entries of `tractArray` that are not objects with a numeric `speed`: each entry is modelled as an optional speed.
- `toggleAnimateStatus`: its body is commented out, so pausing or resuming one element has no effect beyond the global flag.
- Pause on hover and pause on click (`addExtraEvent`): they only call `toggleAnimateStatus`, which has no effect.
- `isAllPaused`: it starts `undefined` in the source and `false` in the model. It is read nowhere, because the check in `render` is commented out.
- `pauseArray`, `layer`, `container` and `containerRect`: `containerRect` survives as `Config.surface`; the rest are DOM handles.

## Findings

| source | as written | input that shows it | evidently intended | confidence | as-written member | corrected member |
|---|---|---|---|---|---|---|
| src/index.ts:146-158 | `getIdleTrackIndex` marks an idle lane `running` (line 211) before `getBarragerItem` reads `options.duration.slice(0, -1)` (line 179), which throws when no speed is truthy and `duration` is undefined | one-lane surface, `push('x', { speed: 0, tractArray: [], duration: undefined })` | a push that throws leaves the lane idle, so that running still means non-empty | not executed | Schedule.PlaceAsWritten (counterexample Schedule.PlaceAsWrittenStrandsLane) | Schedule.Place |

=== FILE: barrager.dfy ===
/**
 * The `Barrager` class: lane statuses and lane lists held in arrays that its
 * methods update in place, the overflow queue, the pause flag and the width
 * of the last measured fragment. Each method is proved against the function
 * in Registry or Schedule that describes its effect on the registry.
 */
module Barragers {
  import opened Js
  import opened Opts
  import opened Motion
  import opened Registry
  import opened Schedule

  /** The first constructor argument: a class selector, an element (given by its rectangle), or anything else. */
  datatype Target = Selector(name: string) | Element(rect: Rect) | Unsupported

  /**
   * What looking a selector up in the document gives: the rectangle of the
   * first matching element, no match, or a syntax error for a selector that
   * is not valid CSS (a normalised `'#app'` becomes `'.#app'`, for one).
   */
  datatype Lookup = Found(rect: Rect) | Missing | Invalid

  /** A selector string gets a leading `.` unless it already has one. */
  function NormalizeSelector(name: string): (r: string)
    ensures |r| > 0 && r[0] == '.'
    ensures |name| > 0 && name[0] == '.' ==> r == name
    ensures !(|name| > 0 && name[0] == '.') ==> |r| == |name| + 1 && r[1..] == name
  {
    if |name| > 0 && name[0] == '.' then name else ['.'] + name
  }

  /** Normalising twice is normalising once. */
  lemma NormalizeSelectorIdempotent(name: string)
    ensures NormalizeSelector(NormalizeSelector(name)) == NormalizeSelector(name)
  {
  }

  /**
   * `initContainer` followed by the measurement in `initOptions`: the
   * surface's rectangle, where `query` stands for looking a selector up in
   * the document and measuring what it finds.
   */
  function Surface(el: Target, query: string -> Lookup): Result<Rect> {
    match el
    case Selector(name) =>
      var selector := NormalizeSelector(name);
      (match query(selector)
       case Found(rect) => Ok(rect)
       case Missing => Err(ContainerNotFound(selector))
       case Invalid => Err(InvalidSelector(selector)))
    case Element(rect) => Ok(rect)
    case Unsupported => Err(NotAnElement)
  }

  /** The constructor up to the lane arrays: instance options, surface and lane count, or the exception it throws. */
  function Setup(el: Target, opts: Options, query: string -> Lookup): (r: Result<(Config, nat)>)
    ensures r.Err? ==> r.fault.InvalidSelector? || r.fault.ContainerNotFound? || r.fault.NotAnElement? || r.fault.InvalidArrayLength?
    ensures el.Unsupported? ==> r == Err(NotAnElement)
    ensures el.Selector? && query(NormalizeSelector(el.name)).Invalid? ==> r == Err(InvalidSelector(NormalizeSelector(el.name)))
    ensures el.Selector? && query(NormalizeSelector(el.name)).Missing? ==> r == Err(ContainerNotFound(NormalizeSelector(el.name)))
    ensures r.Ok? ==> r.value.0.options == Merge(Defaults, opts) && (el.Element? ==> r.value.0.surface == el.rect)
    ensures r.Ok? ==> LaneCount(r.value.0.surface.height, r.value.0.options.trackHeight) == Ok(r.value.1)
    ensures Surface(el, query).Ok? ==>
      (r.Ok? <==> LaneCount(Surface(el, query).value.height, Merge(Defaults, opts).trackHeight).Ok?)
  {
    var options := Merge(Defaults, opts);
    match Surface(el, query)
    case Err(f) => Err(f)
    case Ok(rect) =>
      match LaneCount(rect.height, options.trackHeight)
      case Err(f) => Err(f)
      case Ok(n) => Ok((Config(options, rect), n))
  }

  /**
   * A successful setup used the normalised selector, and with a positive
   * lane height it made as many lanes as fit in the surface's height.
   */
  lemma SetupFitsLanes(el: Target, opts: Options, query: string -> Lookup)
    requires Setup(el, opts, query).Ok?
    ensures var (c, n) := Setup(el, opts, query).value;
      && (el.Selector? ==> query(NormalizeSelector(el.name)) == Found(c.surface))
      && (c.options.trackHeight.Defined? && c.options.trackHeight.value > 0.0 ==>
            n as real * c.options.trackHeight.value <= c.surface.height < (n + 1) as real * c.options.trackHeight.value)
  {
    var (c, n) := Setup(el, opts, query).value;
    if c.options.trackHeight.Defined? && c.options.trackHeight.value > 0.0 {
      LaneCountFitsSurface(c.surface.height, c.options.trackHeight.value);
    }
  }

  /**
   * With the default lane height of 50, setup succeeds on every found surface
   * of a sensible height, with one lane per whole 50 units of height.
   */
  lemma {:induction false} SetupWithDefaultLaneHeight(el: Target, opts: Options, query: string -> Lookup)
    requires opts.trackHeight.Absent? && Surface(el, query).Ok?
    requires 0.0 <= Surface(el, query).value.height <= 1000000.0
    ensures Setup(el, opts, query).Ok?
    ensures Setup(el, opts, query).value.1 == (Surface(el, query).value.height / 50.0).Floor
  {
    var h := Surface(el, query).value.height;
    assert Merge(Defaults, opts).trackHeight == Defined(50.0);
    var q := h / 50.0;
    assert 0.0 <= q <= 20000.0;
    assert 0 <= q.Floor <= 20000;
  }

  class Barrager {
    const config: Config
    /** `tracks`: one status per lane. */
    const tracks: array<Status>
    /** `barrager`: the fragments placed in each lane, oldest first. */
    const barrager: array<seq<Fragment>>
    /** `userBarragers`: high-priority pushes waiting for a lane. */
    var userBarragers: seq<Entry>
    var isAllPaused: bool
    /** `barragerInfo.width`: the width of the last fragment measured. */
    var lastWidth: Option<real>

    /** The registry as a value. */
    function Snapshot(): Board
      reads this, tracks, barrager
    {
      Board(tracks[..], barrager[..], userBarragers, lastWidth)
    }

    ghost predicate Valid()
      reads this, tracks, barrager
    {
      tracks.Length == barrager.Length && Invariant(config, Snapshot())
    }

    /** `initOptions`' arrays: every lane idle with an empty list. */
    constructor (config: Config, laneCount: nat)
      ensures Valid() && fresh(tracks) && fresh(barrager)
      ensures this.config == config && Snapshot() == InitialBoard(laneCount) && !isAllPaused
    {
      this.config := config;
      tracks := new Status[laneCount](_ => Idle);
      barrager := new seq<Fragment>[laneCount](_ => []);
      userBarragers := [];
      isAllPaused := false;
      lastWidth := None;
      new;
      assert tracks[..] == InitialBoard(laneCount).tracks;
      assert barrager[..] == InitialBoard(laneCount).lanes;
    }

    /** The constructor: normalise the selector, find and measure the surface, and make the lanes. */
    static method Create(el: Target, opts: Options, query: string -> Lookup) returns (r: Result<Barrager>)
      ensures Setup(el, opts, query).Err? ==> r == Err(Setup(el, opts, query).fault)
      ensures Setup(el, opts, query).Ok? ==>
        && r.Ok? && fresh(r.value) && r.value.Valid()
        && r.value.config == Setup(el, opts, query).value.0
        && r.value.Snapshot() == InitialBoard(Setup(el, opts, query).value.1)
    {
      var setup := Setup(el, opts, query);
      if setup.Err? {
        return Err(setup.fault);
      }
      var b := new Barrager(setup.value.0, setup.value.1);
      return Ok(b);
    }

    /**
     * `getIdleTrackIndex`: collect the idle lanes; if there are any, mark the
     * one the random tie-break picks as running and return it; otherwise
     * return the first lane whose newest fragment passes `checkTrack`, or -1.
     */
    method GetIdleTrackIndex(p: Probe) returns (r: Result<int>)
      requires tracks.Length == barrager.Length
      modifies tracks
      ensures r == LaneIndex(FindLane(config, old(Snapshot()), p))
      ensures tracks[..] == ClaimTracks(old(tracks[..]), FindLane(config, old(Snapshot()), p))
    {
      var ready := IdleLanes();
      if |ready| > 0 {
        var index := ready[p.random % |ready|];
        tracks[index] := Running;
        return Ok(index);
      }
      r := FirstReusableLane(p);
    }

    /** The first half of `getIdleTrackIndex`: the idle lanes, in lane order. */
    method IdleLanes() returns (ready: seq<nat>)
      ensures ready == ReadyLanes(tracks[..])
    {
      ready := [];
      var i := 0;
      while i < tracks.Length
        invariant 0 <= i <= tracks.Length
        invariant ready == ReadyLanes(tracks[..i])
      {
        assert tracks[..i + 1][..i] == tracks[..i];
        if tracks[i] == Idle {
          ready := ready + [i];
        }
        i := i + 1;
      }
      assert tracks[..i] == tracks[..];
    }

    /**
     * The second half of `getIdleTrackIndex`: the first non-empty lane whose
     * newest fragment passes `checkTrack`, -1 for none, or the first
     * exception `checkTrack` throws.
     */
    method FirstReusableLane(p: Probe) returns (r: Result<int>)
      requires tracks.Length == barrager.Length
      ensures r == Scan(config, Snapshot(), p.tailRect, 0)
    {
      ghost var b := Snapshot();
      var j := 0;
      while j < barrager.Length
        invariant 0 <= j <= barrager.Length
        invariant Scan(config, b, p.tailRect, j) == Scan(config, b, p.tailRect, 0)
      {
        var len := |barrager[j]|;
        if len > 0 {
          var newest := barrager[j][len - 1];
          var pass := CheckTrack(config.options, config.surface, lastWidth, newest.duration, p.tailRect(j));
          if pass.Err? {
            return Err(pass.fault);
          }
          if pass.value {
            return Ok(j);
          }
        }
        j := j + 1;
      }
      return Ok(-1);
    }

    /**
     * `push`: place the fragment in the lane the search returns, drain the
     * queue once and return the fragment's id; with no lane, queue a
     * high-priority fragment and return null.
     */
    method Push(dom: string, opts: Options, prio: Priority, env: Env) returns (r: Result<Option<nat>>)
      requires Valid()
      modifies this, tracks, barrager
      ensures Valid()
      ensures Snapshot() == PushSpec(config, old(Snapshot()), dom, opts, prio, env).board
      ensures r == PushSpec(config, old(Snapshot()), dom, opts, prio, env).result
      ensures isAllPaused == old(isAllPaused)
      decreases |userBarragers|, 2
    {
      ghost var b := Snapshot();
      var options := Merge(config.options, opts);
      var p := env.probe(0);
      ghost var found := FindLane(config, b, p);
      var index := GetIdleTrackIndex(p);
      if index.Err? {
        return Err(index.fault);
      }
      if index.value == -1 {
        if prio == High {
          userBarragers := userBarragers + [Entry(dom, options)];
          MergeAbsorbs(config.options, opts);
        }
        return Ok(None);
      }
      var lane := index.value;
      var duration := Duration(options, lane, config.surface.width, p.width);
      if duration.Err? {
        // The lane search claimed an idle lane only if the lane is still empty: give it back.
        if |barrager[lane]| == 0 {
          tracks[lane] := Idle;
        }
        assert tracks[..] == b.tracks;
        return Err(duration.fault);
      }
      r := PlaceAndDrain(b, found.value, lane, duration.value, options, p.width, env);
    }

    /**
     * The rest of `push` once a lane is chosen and the duration is known:
     * append the fragment, record the width, drain the queue once, and
     * return the fragment's id or the drained push's exception.
     */
    method PlaceAndDrain(ghost b: Board, ghost choice: Choice, lane: nat, duration: Number,
                         options: Options, width: real, env: Env)
      returns (r: Result<Option<nat>>)
      requires tracks.Length == barrager.Length && Invariant(config, b) && Admissible(b, choice)
      requires Snapshot() == b.(tracks := ClaimTracks(b.tracks, Ok(choice)))
      requires lane == choice.lane && Duration(options, lane, config.surface.width, width) == Ok(duration)
      modifies this, tracks, barrager
      ensures Valid()
      ensures var d := RenderSpec(config, Place(config, b, choice, options, width, env.now).value, env.Next());
        Snapshot() == d.board && r == (if d.fault.Some? then Err(d.fault.value) else Ok(Some(env.now)))
      ensures isAllPaused == old(isAllPaused)
      decreases |userBarragers|, 1
    {
      lastWidth := Some(width);
      barrager[lane] := barrager[lane] + [Fragment(env.now, duration)];
      assert Snapshot() == Place(config, b, choice, options, width, env.now).value;
      PlaceKeepsInvariant(config, b, choice, options, width, env.now);
      var fault := Render(env.Next());
      if fault.Some? {
        return Err(fault.value);
      }
      return Ok(Some(env.now));
    }

    /** `render`'s drain: if anything is queued, take the head and push it again with high priority. */
    method Render(env: Env) returns (fault: Option<Fault>)
      requires Valid()
      modifies this, tracks, barrager
      ensures Valid()
      ensures Snapshot() == RenderSpec(config, old(Snapshot()), env).board
      ensures fault == RenderSpec(config, old(Snapshot()), env).fault
      ensures isAllPaused == old(isAllPaused)
      decreases |userBarragers|, 0
    {
      if |userBarragers| == 0 {
        return None;
      }
      var head := userBarragers[0];
      userBarragers := userBarragers[1..];
      var r := Push(head.dom, head.options, High, env);
      fault := if r.Err? then Some(r.fault) else None;
    }

    /**
     * The `transitionend` handler of the fragment `id` placed in `lane`: drop
     * every fragment with that id from the lane, and mark the lane idle when
     * nothing is left in it.
     */
    method TransitionEnd(lane: nat, id: nat)
      requires Valid() && lane < barrager.Length
      modifies tracks, barrager
      ensures Valid()
      ensures Snapshot() == Release(old(Snapshot()), lane, id)
    {
      ghost var b := Snapshot();
      barrager[lane] := Without(barrager[lane], id);
      if |barrager[lane]| == 0 {
        tracks[lane] := Idle;
      }
      assert Snapshot() == Release(b, lane, id);
      ReleaseKeepsInvariant(config, b, lane, id);
    }

    /** `getBarragerList`: every placed fragment, the last lane's first. */
    function GetBarragerList(): (r: seq<Fragment>)
      reads this, barrager
      ensures multiset(r) == LanesMultiset(barrager[..])
      ensures forall f :: f in r <==> exists i :: 0 <= i < barrager.Length && f in barrager[i]
    {
      FlattenContents(barrager[..], []);
      FlattenMembershipAll(barrager[..]);
      Flatten(barrager[..], [])
    }

    /** `pause(el)`: pausing with no element sets the global flag; pausing one element leaves it. */
    method Pause(target: Option<nat>)
      requires Valid()
      modifies this`isAllPaused
      ensures Valid()
      ensures isAllPaused == (target.None? || old(isAllPaused))
    {
      if target.None? {
        isAllPaused := true;
      }
    }

    /** `resume(el)`: clears the global flag, whatever the argument. */
    method Resume(target: Option<nat>)
      requires Valid()
      modifies this`isAllPaused
      ensures Valid() && !isAllPaused
    {
      isAllPaused := false;
    }
  }

  lemma FlattenMembershipAll(lanes: seq<seq<Fragment>>)
    ensures forall f :: f in Flatten(lanes, []) <==> exists i :: 0 <= i < |lanes| && f in lanes[i]
  {
    forall f {
      FlattenMembership(lanes, f);
    }
  }
}

=== FILE: js.dfy ===
/**
 * The few JavaScript runtime values the scheduler depends on: optional
 * properties of an options object, the exceptions the scheduler can throw,
 * double-precision numbers with their non-finite values, and the unary `+`
 * conversion from a string to a number.
 */
module Js {

  datatype Option<T> = None | Some(value: T)

  /** The exceptions the scheduler throws, one per throwing site. */
  datatype Fault =
    | InvalidSelector(selector: string)   // the selector is not valid CSS (`querySelector` throws)
    | ContainerNotFound(selector: string) // no element matches the selector
    | NotAnElement                        // the target is neither a selector nor an element
    | InvalidArrayLength                  // `new Array(n)` with n not a valid array length
    | DurationMissing                     // `options.duration.slice` with `duration` undefined
    | LaneSpeedsMissing                   // `this.options.tractArray.length` with `tractArray` undefined

  datatype Result<T> = Ok(value: T) | Err(fault: Fault)

  /**
   * A property of an options object. Spreading `{...a, ...b}` copies every key
   * `b` owns, even when its value is `undefined`, so "absent" and "present but
   * undefined" must be told apart.
   */
  datatype Prop<T> = Absent | Undefined | Defined(value: T)

  /** The property `{...base, ...over}` ends up with. */
  function Spread<T>(base: Prop<T>, over: Prop<T>): Prop<T> {
    if over.Absent? then base else over
  }

  /** JavaScript truthiness of a number-valued property (0 and undefined are falsy). */
  predicate TruthyNumber(p: Prop<real>) {
    p.Defined? && p.value != 0.0
  }

  /** JavaScript truthiness of an optional number. */
  predicate TruthyValue(o: Option<real>) {
    o.Some? && o.value != 0.0
  }

  /** The largest length `new Array(n)` accepts (2^32 - 1). */
  const MaxArrayLength: nat := 4294967295

  /**
   * A double-precision number. Finite values are modelled as reals; the
   * sign of zero is not modelled.
   */
  datatype Number = Finite(r: real) | PosInfinity | NegInfinity | NaN

  function Negate(a: Number): Number {
    match a
    case Finite(x) => Finite(-x)
    case PosInfinity => NegInfinity
    case NegInfinity => PosInfinity
    case NaN => NaN
  }

  function Add(a: Number, b: Number): Number {
    match (a, b)
    case (NaN, _) => NaN
    case (_, NaN) => NaN
    case (Finite(x), Finite(y)) => Finite(x + y)
    case (Finite(_), _) => b
    case (_, Finite(_)) => a
    case (PosInfinity, PosInfinity) => PosInfinity
    case (NegInfinity, NegInfinity) => NegInfinity
    case _ => NaN
  }

  function Div(a: Number, b: Number): Number {
    match (a, b)
    case (NaN, _) => NaN
    case (_, NaN) => NaN
    case (Finite(x), Finite(y)) =>
      if y != 0.0 then Finite(x / y)
      else if x > 0.0 then PosInfinity
      else if x < 0.0 then NegInfinity
      else NaN
    case (Finite(_), _) => Finite(0.0)
    case (_, Finite(y)) => if y < 0.0 then Negate(a) else a
    case _ => NaN
  }

  /** `a < b`; every comparison with NaN is false. */
  predicate Less(a: Number, b: Number) {
    match (a, b)
    case (NaN, _) => false
    case (_, NaN) => false
    case (Finite(x), Finite(y)) => x < y
    case (NegInfinity, NegInfinity) => false
    case (NegInfinity, _) => true
    case (PosInfinity, _) => false
    case (_, PosInfinity) => true
    case _ => false
  }

  /** `a <= b`; every comparison with NaN is false. */
  predicate LessEq(a: Number, b: Number) {
    match (a, b)
    case (NaN, _) => false
    case (_, NaN) => false
    case (Finite(x), Finite(y)) => x <= y
    case (NegInfinity, _) => true
    case (_, PosInfinity) => true
    case _ => false
  }

  predicate IsDigit(c: char) {
    '0' <= c <= '9'
  }

  predicate AllDigits(s: string) {
    forall k :: 0 <= k < |s| ==> IsDigit(s[k])
  }

  function DigitValue(c: char): nat
    requires IsDigit(c)
  {
    c as int - '0' as int
  }

  /** The value of a string of decimal digits. */
  function DigitsValue(s: string): nat
    requires AllDigits(s)
  {
    if s == [] then 0 else DigitsValue(s[..|s| - 1]) * 10 + DigitValue(s[|s| - 1])
  }

  function Pow10(n: nat): (r: nat)
    ensures r >= 1
  {
    if n == 0 then 1 else 10 * Pow10(n - 1)
  }

  /** The length of the longest prefix of `s` made of digits. */
  function LeadingDigits(s: string): (r: nat)
    ensures r <= |s| && AllDigits(s[..r])
    ensures r < |s| ==> !IsDigit(s[r])
  {
    if s == [] || !IsDigit(s[0]) then 0
    else
      var n := LeadingDigits(s[1..]);
      assert s[..n + 1] == [s[0]] + s[1..][..n];
      n + 1
  }

  /** An unsigned decimal literal: digits, optionally a point and more digits, at least one digit. */
  function UnsignedDecimal(s: string): (r: Number)
    ensures r.Finite? || r.NaN?
    ensures r.Finite? ==> r.r >= 0.0
  {
    var p := LeadingDigits(s);
    if p == |s| then
      if p == 0 then NaN else Finite(DigitsValue(s) as real)
    else if s[p] == '.' && AllDigits(s[p + 1..]) && (p > 0 || p + 1 < |s|) then
      var whole := DigitsValue(s[..p]) as real;
      var fraction := DigitsValue(s[p + 1..]) as real / Pow10(|s| - p - 1) as real;
      Finite(whole + fraction)
    else NaN
  }

  /**
   * Unary `+` applied to a string: the empty string is 0, a signed decimal
   * literal is its value, anything else is NaN.
   */
  function ToNumber(s: string): (r: Number)
    ensures s == [] ==> r == Finite(0.0)
    ensures |s| > 0 && AllDigits(s) ==> r == Finite(DigitsValue(s) as real)
    ensures r.Finite? || r.NaN?
    ensures r.Finite? && (s == [] || s[0] != '-') ==> r.r >= 0.0
  {
    if s == [] then Finite(0.0)
    else if s[0] == '-' then Negate(UnsignedDecimal(s[1..]))
    else if s[0] == '+' then UnsignedDecimal(s[1..])
    else UnsignedDecimal(s)
  }

  /** `String(n)` for a non-negative integer: its decimal digits. */
  function NatToString(n: nat): (s: string)
    ensures |s| > 0 && AllDigits(s)
  {
    if n < 10 then ['0' + n as char] else NatToString(n / 10) + ['0' + (n % 10) as char]
  }

  lemma {:induction false} NatToStringValue(n: nat)
    ensures DigitsValue(NatToString(n)) == n
  {
    var s := NatToString(n);
    if n >= 10 {
      NatToStringValue(n / 10);
      assert s[..|s| - 1] == NatToString(n / 10);
    }
  }

  /** Converting the decimal digits of a natural number back with `+` gives the number. */
  lemma NatToStringRoundTrip(n: nat)
    ensures ToNumber(NatToString(n)) == Finite(n as real)
  {
    var s := NatToString(n);
    NatToStringValue(n);
    assert IsDigit(s[0]);
    assert LeadingDigits(s) == |s|;
  }
}

=== FILE: motion.dfy ===
/**
 * The motion arithmetic of a fragment: the transit duration chosen when it is
 * placed, and the test that decides whether a running lane may take another
 * fragment behind its newest one.
 */
module Motion {
  import opened Js
  import opened Opts

  /** A bounding rectangle as the page reports it. */
  datatype Rect = Rect(left: real, right: real, width: real, height: real)

  /** The speed the lane-speed list gives the lane, if the list is set and has an entry with a speed there. */
  function LaneSpeed(o: Options, lane: nat): Option<real> {
    if o.tractArray.Defined? && lane < |o.tractArray.value| then o.tractArray.value[lane] else None
  }

  /** The lane's own speed when it is truthy, else the options' speed when that is truthy, else none. */
  function Speed(o: Options, lane: nat): Option<real> {
    var ls := LaneSpeed(o, lane);
    if TruthyValue(ls) then ls
    else if TruthyNumber(o.speed) then Some(o.speed.value)
    else None
  }

  /** Everything but the last character, as slicing off the final unit does. */
  function DropLast(s: string): (r: string)
    ensures |s| > 0 ==> s == r + [s[|s| - 1]]
    ensures |s| == 0 ==> r == []
  {
    if s == [] then [] else s[..|s| - 1]
  }

  /**
   * The transit duration, in seconds, of a fragment of measured width `width`
   * placed in `lane` of a surface of width `surfaceWidth`: the full travel
   * distance over the speed when there is a truthy speed, otherwise the
   * `duration` option read as a number after dropping its unit character.
   * `o` are the push's options: the instance options overridden by the
   * call-site options.
   */
  function Duration(o: Options, lane: nat, surfaceWidth: real, width: real): (r: Result<Number>)
    ensures r.Err? <==> Speed(o, lane).None? && !o.duration.Defined?
    ensures r.Err? ==> r.fault == DurationMissing
    ensures Speed(o, lane).Some? ==> r.Ok? && r.value.Finite?
    ensures r.Ok? ==> r.value.Finite? || r.value.NaN?
  {
    match Speed(o, lane)
    case Some(v) => Ok(Finite((surfaceWidth + width) / v))
    case None =>
      if o.duration.Defined? then Ok(ToNumber(DropLast(o.duration.value))) else Err(DurationMissing)
  }

  /** The lane's own speed wins over the options' `speed`, which wins over the duration string. */
  lemma SpeedPrecedence(o: Options, lane: nat)
    ensures TruthyValue(LaneSpeed(o, lane)) ==> Speed(o, lane) == LaneSpeed(o, lane)
    ensures !TruthyValue(LaneSpeed(o, lane)) && TruthyNumber(o.speed) ==> Speed(o, lane) == Some(o.speed.value)
    ensures Speed(o, lane).None? <==> !TruthyValue(LaneSpeed(o, lane)) && !TruthyNumber(o.speed)
  {
  }

  /** With a speed, the fragment covers the surface width plus its own width at exactly that speed. */
  lemma DurationCoversDistance(o: Options, lane: nat, surfaceWidth: real, width: real)
    requires Speed(o, lane).Some?
    ensures var d := Duration(o, lane, surfaceWidth, width);
      d.Ok? && d.value.Finite? && d.value.r * Speed(o, lane).value == surfaceWidth + width
  {
  }

  /** A positive speed over a positive distance gives a positive duration. */
  lemma DurationPositive(o: Options, lane: nat, surfaceWidth: real, width: real)
    requires Speed(o, lane).Some? && Speed(o, lane).value > 0.0
    requires surfaceWidth + width > 0.0
    ensures var d := Duration(o, lane, surfaceWidth, width);
      d.Ok? && d.value.Finite? && d.value.r > 0.0
  {
  }

  /** Without a speed, the duration does not depend on the geometry. */
  lemma DurationIgnoresDistance(o: Options, lane: nat, w1: real, v1: real, w2: real, v2: real)
    requires Speed(o, lane).None?
    ensures Duration(o, lane, w1, v1) == Duration(o, lane, w2, v2)
  {
  }

  /** Without a speed and without a duration string, placing the fragment throws. */
  lemma DurationMissingThrows(o: Options, lane: nat, surfaceWidth: real, width: real)
    requires Speed(o, lane).None? && !o.duration.Defined?
    ensures Duration(o, lane, surfaceWidth, width) == Err(DurationMissing)
  {
  }

  /** Without a speed, a duration written as a whole number followed by a unit is that many seconds. */
  lemma {:induction false} DurationInSeconds(o: Options, lane: nat, surfaceWidth: real, width: real, n: nat, unit: char)
    requires Speed(o, lane).None?
    requires o.duration == Defined(NatToString(n) + [unit])
    ensures Duration(o, lane, surfaceWidth, width) == Ok(Finite(n as real))
  {
    assert DropLast(NatToString(n) + [unit]) == NatToString(n);
    NatToStringRoundTrip(n);
  }

  /** The library's default `duration` of "10s" is 10 seconds. */
  lemma DefaultDurationIsTenSeconds(o: Options, lane: nat, surfaceWidth: real, width: real)
    requires Speed(o, lane).None? && o.duration == Defaults.duration
    ensures Duration(o, lane, surfaceWidth, width) == Ok(Finite(10.0))
  {
    assert "10s" == NatToString(10) + ['s'];
    DurationInSeconds(o, lane, surfaceWidth, width, 10, 's');
  }

  /** Whether `checkTrack` takes its speed branch: a truthy instance speed or a non-empty `tractArray`. */
  predicate SpeedMode(o: Options) {
    TruthyNumber(o.speed) || (o.tractArray.Defined? && |o.tractArray.value| > 0)
  }

  /**
   * `checkTrack`: may a new fragment follow the newest fragment of a running
   * lane? `o` are the instance options, `surface` the cached surface
   * rectangle, `lastWidth` the width of the last fragment measured, and
   * `duration` and `rect` the newest fragment's stored duration and current
   * rectangle. The duration branch compares the newest fragment's speed `v1`
   * with `v2`, the speed of a fragment of width `lastWidth` over the same
   * duration: a faster follower is refused when it would reach the surface's
   * left edge before the newest fragment has left it. A missing `lastWidth`
   * is read as NaN; the registry invariant rules that case out, because a
   * lane holds a fragment only once some fragment has been measured.
   */
  function CheckTrack(o: Options, surface: Rect, lastWidth: Option<real>, duration: Number, rect: Rect): (r: Result<bool>)
    ensures rect.right > surface.right ==> r == Ok(false)
    ensures r.Err? ==> r.fault == LaneSpeedsMissing && !SpeedMode(o)
    ensures SpeedMode(o) ==> r == Ok(rect.right <= surface.right)
  {
    if rect.right > surface.right then Ok(false)
    else if TruthyNumber(o.speed) then Ok(true)
    else if !o.tractArray.Defined? then Err(LaneSpeedsMissing)
    else if |o.tractArray.value| > 0 then Ok(true)
    else
      var w := surface.width;
      var v1 := Div(Finite(w + rect.width), duration);
      var s2 := Add(Finite(w), if lastWidth.Some? then Finite(lastWidth.value) else NaN);
      var v2 := Div(s2, duration);
      if LessEq(v2, v1) then Ok(true)
      else
        var t1 := Div(Finite(rect.right - surface.left), v1);
        var t2 := Div(Finite(w), v2);
        Ok(!Less(t2, t1))
  }

  /** A newest fragment still sticking out past the right edge blocks the lane. */
  lemma CheckTrackRefusesOverhang(o: Options, surface: Rect, lastWidth: Option<real>, duration: Number, rect: Rect)
    requires rect.right > surface.right
    ensures CheckTrack(o, surface, lastWidth, duration, rect) == Ok(false)
  {
  }

  /** In speed mode every newest fragment that has fully entered lets the lane be reused. */
  lemma CheckTrackSpeedMode(o: Options, surface: Rect, lastWidth: Option<real>, duration: Number, rect: Rect)
    requires rect.right <= surface.right && SpeedMode(o)
    ensures CheckTrack(o, surface, lastWidth, duration, rect) == Ok(true)
  {
  }

  /** Without a truthy speed, a `tractArray` set to undefined makes the test throw. */
  lemma CheckTrackThrows(o: Options, surface: Rect, lastWidth: Option<real>, duration: Number, rect: Rect)
    ensures CheckTrack(o, surface, lastWidth, duration, rect).Err? <==>
      rect.right <= surface.right && !TruthyNumber(o.speed) && !o.tractArray.Defined?
  {
  }

  /**
   * The duration branch on finite, positive quantities: the lane is reusable
   * when the follower is no faster (`v2 <= v1`), and otherwise refused exactly
   * when the follower would cross the surface (`W / v2`) sooner than the
   * newest fragment's right edge reaches the left edge (`(right - left) / v1`).
   */
  lemma {:induction false} CheckTrackDurationMode(o: Options, surface: Rect, lastWidth: real, d: real, rect: Rect)
    requires rect.right <= surface.right && !SpeedMode(o) && o.tractArray.Defined?
    requires d > 0.0 && surface.width > 0.0 && surface.width + rect.width > 0.0 && surface.width + lastWidth > 0.0
    ensures var v1 := (surface.width + rect.width) / d;
      var v2 := (surface.width + lastWidth) / d;
      CheckTrack(o, surface, Some(lastWidth), Finite(d), rect) ==
        Ok(v2 <= v1 || !(surface.width / v2 < (rect.right - surface.left) / v1))
  {
    var v1 := (surface.width + rect.width) / d;
    var v2 := (surface.width + lastWidth) / d;
    assert v1 > 0.0 && v2 > 0.0;
  }

  /**
   * In the duration branch two fragments share one duration, so the follower
   * is no faster, and the lane is reusable, whenever the last measured width
   * does not exceed the newest fragment's width.
   */
  lemma {:induction false} CheckTrackNarrowFollower(o: Options, surface: Rect, lastWidth: real, d: real, rect: Rect)
    requires rect.right <= surface.right && !SpeedMode(o) && o.tractArray.Defined?
    requires d > 0.0 && surface.width > 0.0 && surface.width + lastWidth > 0.0
    requires lastWidth <= rect.width
    ensures CheckTrack(o, surface, Some(lastWidth), Finite(d), rect) == Ok(true)
  {
    var a := surface.width + lastWidth;
    var b := surface.width + rect.width;
    assert a / d <= b / d by {
      assert a <= b;
      assert a / d == a * (1.0 / d) && b / d == b * (1.0 / d);
      assert 1.0 / d > 0.0;
    }
    CheckTrackDurationMode(o, surface, lastWidth, d, rect);
  }
}

=== FILE: opts.dfy ===
/**
 * The options record of a Barrager and the object-spread merge that builds
 * the instance options (defaults, then constructor options) and the options
 * of one push (instance options, then call-site options).
 */
module Opts {
  import opened Js

  /**
   * The recognised options. `tractArray` holds one entry per lane index; an
   * entry is the lane's `speed` (None when the entry, or its speed, is
   * missing). The `onStart`/`onEnd` callbacks are not part of this record.
   */
  datatype Options = Options(
    trackHeight: Prop<real>,
    tractArray: Prop<seq<Option<real>>>,
    pauseOnHover: Prop<bool>,
    pauseOnClick: Prop<bool>,
    duration: Prop<string>,
    speed: Prop<real>)

  /** The empty object `{}`. */
  const NoOptions: Options := Options(Absent, Absent, Absent, Absent, Absent, Absent)

  /** The library defaults. */
  const Defaults: Options := Options(
    Defined(50.0),
    Defined([Some(150.0), Some(130.0)]),
    Defined(false),
    Defined(false),
    Defined("10s"),
    Defined(100.0))

  /**
   * `{...base, ...over}`: the empty object on either side changes nothing
   * (the call-site default `opts = {}` in particular).
   */
  function Merge(base: Options, over: Options): (r: Options)
    ensures over == NoOptions ==> r == base
    ensures base == NoOptions ==> r == over
  {
    Options(
      Spread(base.trackHeight, over.trackHeight),
      Spread(base.tractArray, over.tractArray),
      Spread(base.pauseOnHover, over.pauseOnHover),
      Spread(base.pauseOnClick, over.pauseOnClick),
      Spread(base.duration, over.duration),
      Spread(base.speed, over.speed))
  }

  /** Every key `over` carries, even as `undefined`, wins; every other key keeps `base`'s value. */
  lemma MergeLaterWins(base: Options, over: Options)
    ensures var m := Merge(base, over);
      && (m.speed == if over.speed.Absent? then base.speed else over.speed)
      && (m.duration == if over.duration.Absent? then base.duration else over.duration)
      && (m.tractArray == if over.tractArray.Absent? then base.tractArray else over.tractArray)
      && (m.trackHeight == if over.trackHeight.Absent? then base.trackHeight else over.trackHeight)
      && (m.pauseOnHover == if over.pauseOnHover.Absent? then base.pauseOnHover else over.pauseOnHover)
      && (m.pauseOnClick == if over.pauseOnClick.Absent? then base.pauseOnClick else over.pauseOnClick)
  {
  }

  /** Spreading is associative, so defaults, instance and call-site options can be merged in any grouping. */
  lemma MergeAssociative(a: Options, b: Options, c: Options)
    ensures Merge(Merge(a, b), c) == Merge(a, Merge(b, c))
  {
  }

  /**
   * Merging the instance options again into options that were already merged
   * over them changes nothing: a queued entry re-pushed with its stored
   * options resolves to the same options.
   */
  lemma MergeAbsorbs(base: Options, over: Options)
    ensures Merge(base, Merge(base, over)) == Merge(base, over)
  {
  }

  /** With the defaults underneath, no key of the instance options is absent. */
  lemma MergeOverDefaultsIsComplete(o: Options)
    ensures var m := Merge(Defaults, o);
      && !m.trackHeight.Absent? && !m.tractArray.Absent? && !m.duration.Absent? && !m.speed.Absent?
  {
  }
}

=== FILE: registry.dfy ===
/**
 * The lane registry of a Barrager as a value: lane statuses, each lane's
 * list of placed fragments, the overflow queue and the last measured width,
 * with the lane search, the release of a finished fragment and the
 * flattened list of fragments.
 */
module Registry {
  import opened Js
  import opened Opts
  import opened Motion

  datatype Status = Idle | Running

  /** A placed fragment: its element id (a clock reading) and the duration stored on it. */
  datatype Fragment = Fragment(id: nat, duration: Number)

  /** A high-priority push waiting for a lane, with its merged options. */
  datatype Entry = Entry(dom: string, options: Options)

  /**
   * The state the scheduler changes: `tracks`, `barrager` (here `lanes`),
   * `userBarragers` (here `queue`) and the width in `barragerInfo`.
   */
  datatype Board = Board(tracks: seq<Status>, lanes: seq<seq<Fragment>>, queue: seq<Entry>, lastWidth: Option<real>)

  /** What does not change after setup: the instance options and the cached surface rectangle. */
  datatype Config = Config(options: Options, surface: Rect)

  /**
   * What one lane search observes of the page: the random number behind the
   * tie-break, the current rectangle of each lane's newest fragment, and the
   * width the new fragment measures.
   */
  datatype Probe = Probe(random: nat, tailRect: nat -> Rect, width: real)

  predicate WellFormed(b: Board) {
    |b.tracks| == |b.lanes|
  }

  /** The registry invariant: a lane is running exactly when its fragment list is non-empty. */
  predicate Consistent(b: Board) {
    WellFormed(b) && forall i :: 0 <= i < |b.tracks| ==> (b.tracks[i] == Running <==> b.lanes[i] != [])
  }

  /** Every queued entry carries options already merged over the instance options. */
  predicate QueueResolved(c: Config, q: seq<Entry>) {
    forall k :: 0 <= k < |q| ==> Merge(c.options, q[k].options) == q[k].options
  }

  /** A fragment is placed only after one has been measured, so `barragerInfo` is set whenever a lane is non-empty. */
  predicate Measured(b: Board) {
    b.lastWidth.None? ==> forall i :: 0 <= i < |b.lanes| ==> b.lanes[i] == []
  }

  predicate Invariant(c: Config, b: Board) {
    Consistent(b) && QueueResolved(c, b.queue) && Measured(b)
  }

  /** The lane test only ever runs with a measured width: an unmeasured registry has no lane to test. */
  lemma TestedLaneWasMeasured(c: Config, b: Board, i: nat)
    requires Invariant(c, b) && i < |b.lanes| && b.lanes[i] != []
    ensures b.lastWidth.Some?
  {
  }

  /** The number of lanes `initOptions` creates for a surface of the given height. */
  function LaneCount(height: real, trackHeight: Prop<real>): (r: Result<nat>)
    ensures r.Err? ==> r.fault == InvalidArrayLength
    ensures r.Ok? && !TruthyNumber(trackHeight) ==> r.value as real == height
    ensures r.Ok? && TruthyNumber(trackHeight) ==> r.value as real <= height / trackHeight.value < r.value as real + 1.0
    ensures TruthyNumber(trackHeight) ==> (r.Ok? <==> 0 <= (height / trackHeight.value).Floor <= MaxArrayLength)
  {
    if TruthyNumber(trackHeight) then ArrayLength((height / trackHeight.value).Floor as real)
    else ArrayLength(height)
  }

  /** `new Array(n)`: a whole number from 0 to 2^32 - 1, or a RangeError. */
  function ArrayLength(n: real): Result<nat> {
    if n == n.Floor as real && 0 <= n.Floor <= MaxArrayLength then Ok(n.Floor) else Err(InvalidArrayLength)
  }

  /** With a positive lane height, the lanes fill the surface's height without exceeding it. */
  lemma {:induction false} LaneCountFitsSurface(height: real, trackHeight: real)
    requires trackHeight > 0.0 && LaneCount(height, Defined(trackHeight)).Ok?
    ensures var n := LaneCount(height, Defined(trackHeight)).value;
      n as real * trackHeight <= height < (n + 1) as real * trackHeight
  {
    var q := height / trackHeight;
    var n := q.Floor;
    assert (n as real).Floor == n;
    assert LaneCount(height, Defined(trackHeight)).value == n;
    assert q * trackHeight == height;
    assert n as real <= q < n as real + 1.0 == (n + 1) as real;
    ScaleKeepsOrder(n as real, q, trackHeight);
    ScaleKeepsStrictOrder(q, (n + 1) as real, trackHeight);
    assert height < (n + 1) as real * trackHeight;
  }

  lemma ScaleKeepsOrder(x: real, y: real, t: real)
    requires x <= y && t > 0.0
    ensures x * t <= y * t
  {
  }

  lemma ScaleKeepsStrictOrder(x: real, y: real, t: real)
    requires x < y && t > 0.0
    ensures x * t < y * t
  {
  }

  /** Without a lane height, the surface height itself is the lane count and must be a valid length. */
  lemma LaneCountWithoutTrackHeight(height: real, trackHeight: Prop<real>)
    requires !TruthyNumber(trackHeight)
    ensures LaneCount(height, trackHeight).Ok? <==> height == height.Floor as real && 0 <= height.Floor <= MaxArrayLength
    ensures LaneCount(height, trackHeight).Ok? ==> LaneCount(height, trackHeight).value as real == height
  {
  }

  /** The registry right after setup: every lane idle and empty, nothing queued, nothing measured. */
  function InitialBoard(n: nat): (b: Board)
    ensures Consistent(b) && |b.tracks| == n && b.queue == []
    ensures forall i :: 0 <= i < n ==> b.tracks[i] == Idle && b.lanes[i] == []
  {
    Board(seq(n, _ => Idle), seq(n, _ => []), [], None)
  }

  /** The indices of the idle lanes, in increasing order, as the `forEach` collects them. */
  function ReadyLanes(tracks: seq<Status>): (r: seq<nat>)
    ensures forall k :: 0 <= k < |r| ==> r[k] < |tracks| && tracks[r[k]] == Idle
    ensures forall i :: 0 <= i < |tracks| && tracks[i] == Idle ==> i in r
    ensures forall k, l :: 0 <= k < l < |r| ==> r[k] < r[l]
  {
    if tracks == [] then []
    else
      var front := ReadyLanes(tracks[..|tracks| - 1]);
      if tracks[|tracks| - 1] == Idle then front + [|tracks| - 1] else front
  }

  function Last(s: seq<Fragment>): Fragment
    requires s != []
  {
    s[|s| - 1]
  }

  /** The `checkTrack` verdict on lane `i`'s newest fragment. */
  function LaneCheck(c: Config, b: Board, rect: nat -> Rect, i: nat): Result<bool>
    requires i < |b.lanes| && b.lanes[i] != []
  {
    CheckTrack(c.options, c.surface, b.lastWidth, Last(b.lanes[i]).duration, rect(i))
  }

  /** Lane `i` is non-empty and its newest fragment passes `checkTrack`. */
  predicate Reusable(c: Config, b: Board, rect: nat -> Rect, i: nat)
    requires i < |b.lanes|
  {
    b.lanes[i] != [] && LaneCheck(c, b, rect, i) == Ok(true)
  }

  /** Lane `i` is skipped by the fallback loop: empty, or its newest fragment fails `checkTrack`. */
  predicate Skipped(c: Config, b: Board, rect: nat -> Rect, i: nat)
    requires i < |b.lanes|
  {
    b.lanes[i] == [] || LaneCheck(c, b, rect, i) == Ok(false)
  }

  /**
   * The fallback loop from lane `i` on: the first reusable lane, -1 when
   * there is none, or the exception the first throwing `checkTrack` raises.
   */
  function Scan(c: Config, b: Board, rect: nat -> Rect, i: nat): (r: Result<int>)
    requires i <= |b.lanes|
    ensures r.Ok? && r.value >= 0 ==>
      i <= r.value < |b.lanes| && Reusable(c, b, rect, r.value) &&
      forall j :: i <= j < r.value ==> Skipped(c, b, rect, j)
    ensures r.Ok? && r.value < 0 ==> r.value == -1 && forall j :: i <= j < |b.lanes| ==> Skipped(c, b, rect, j)
    ensures r.Err? ==> exists j :: i <= j < |b.lanes| && b.lanes[j] != [] && LaneCheck(c, b, rect, j) == Err(r.fault)
    decreases |b.lanes| - i
  {
    if i == |b.lanes| then Ok(-1)
    else if b.lanes[i] == [] then Scan(c, b, rect, i + 1)
    else match LaneCheck(c, b, rect, i)
      case Err(f) => Err(f)
      case Ok(pass) => if pass then Ok(i) else Scan(c, b, rect, i + 1)
  }

  /** The outcome of `getIdleTrackIndex`. */
  datatype Choice = Claim(lane: nat) | Reuse(lane: nat) | NoLane

  /**
   * `getIdleTrackIndex`: claim a randomly chosen idle lane if there is one;
   * otherwise reuse the first lane whose newest fragment passes `checkTrack`.
   */
  function FindLane(c: Config, b: Board, p: Probe): (r: Result<Choice>)
    requires WellFormed(b)
    ensures r.Ok? && r.value.Claim? ==> r.value.lane < |b.tracks| && b.tracks[r.value.lane] == Idle
    ensures r.Ok? && r.value.Reuse? ==> r.value.lane < |b.lanes| && Reusable(c, b, p.tailRect, r.value.lane)
    ensures (exists i :: 0 <= i < |b.tracks| && b.tracks[i] == Idle) ==> r.Ok? && r.value.Claim?
  {
    var ready := ReadyLanes(b.tracks);
    if |ready| > 0 then Ok(Claim(ready[p.random % |ready|]))
    else match Scan(c, b, p.tailRect, 0)
      case Err(f) => Err(f)
      case Ok(i) => if i >= 0 then Ok(Reuse(i)) else Ok(NoLane)
  }

  /** The lane index `getIdleTrackIndex` returns, -1 for none. */
  function LaneIndex(r: Result<Choice>): Result<int> {
    match r
    case Err(f) => Err(f)
    case Ok(ch) => Ok(if ch.NoLane? then -1 else ch.lane)
  }

  /** The statuses after a lane search: a claimed lane is marked running, nothing else changes. */
  function ClaimTracks(tracks: seq<Status>, r: Result<Choice>): seq<Status> {
    if r.Ok? && r.value.Claim? && r.value.lane < |tracks| then tracks[r.value.lane := Running] else tracks
  }

  /** Every idle lane is the one claimed for some outcome of the random tie-break. */
  lemma {:induction false} EveryIdleLaneCanBeClaimed(c: Config, b: Board, p: Probe, i: nat)
    requires WellFormed(b) && i < |b.tracks| && b.tracks[i] == Idle
    ensures exists n: nat :: FindLane(c, b, p.(random := n)) == Ok(Claim(i))
  {
    var ready := ReadyLanes(b.tracks);
    var k :| 0 <= k < |ready| && ready[k] == i;
    assert k % |ready| == k;
    assert FindLane(c, b, p.(random := k)) == Ok(Claim(i));
  }

  /**
   * When no lane is idle, the search changes no status and returns the
   * lowest reusable lane, or -1 when every non-empty lane fails the test.
   */
  lemma {:induction false} FindLaneWithoutIdleLane(c: Config, b: Board, p: Probe)
    requires WellFormed(b) && forall i :: 0 <= i < |b.tracks| ==> b.tracks[i] == Running
    ensures var r := FindLane(c, b, p);
      && ClaimTracks(b.tracks, r) == b.tracks
      && (r.Ok? && r.value.Reuse? ==>
            Reusable(c, b, p.tailRect, r.value.lane) &&
            forall j :: 0 <= j < r.value.lane ==> Skipped(c, b, p.tailRect, j))
      && (r == Ok(NoLane) ==> forall j :: 0 <= j < |b.lanes| ==> Skipped(c, b, p.tailRect, j))
  {
  }

  /** The list without the fragments whose id is `id`, as the release's filter leaves it. */
  function Without(s: seq<Fragment>, id: nat): (r: seq<Fragment>)
    ensures forall f :: f in r ==> f.id != id && f in s
  {
    if s == [] then []
    else (if s[0].id == id then [] else [s[0]]) + Without(s[1..], id)
  }

  /** Every fragment with another id survives the filter as many times as it occurs. */
  lemma {:induction false} WithoutKeepsOthers(s: seq<Fragment>, id: nat, f: Fragment)
    requires f.id != id
    ensures multiset(Without(s, id))[f] == multiset(s)[f]
  {
    if s != [] {
      assert s == [s[0]] + s[1..];
      WithoutKeepsOthers(s[1..], id, f);
    }
  }

  /** Filtering distributes over concatenation, so the surviving fragments keep their order. */
  lemma {:induction false} WithoutKeepsOrder(s: seq<Fragment>, t: seq<Fragment>, id: nat)
    ensures Without(s + t, id) == Without(s, id) + Without(t, id)
  {
    if s == [] {
      assert s + t == t;
    } else {
      assert (s + t)[0] == s[0] && (s + t)[1..] == s[1..] + t;
      WithoutKeepsOrder(s[1..], t, id);
    }
  }

  /** A list holding no fragment with the id is left as it is. */
  lemma {:induction false} WithoutNoMatch(s: seq<Fragment>, id: nat)
    requires forall f :: f in s ==> f.id != id
    ensures Without(s, id) == s
  {
    if s != [] {
      assert forall f :: f in s[1..] ==> f in s;
      WithoutNoMatch(s[1..], id);
    }
  }

  /** Filtering twice is filtering once. */
  lemma WithoutIdempotent(s: seq<Fragment>, id: nat)
    ensures Without(Without(s, id), id) == Without(s, id)
  {
    WithoutNoMatch(Without(s, id), id);
  }

  /** The transitionend handler of a fragment with id `id` placed in `lane`. */
  function Release(b: Board, lane: nat, id: nat): (r: Board)
    requires WellFormed(b) && lane < |b.lanes|
    ensures WellFormed(r) && |r.lanes| == |b.lanes| && r.queue == b.queue && r.lastWidth == b.lastWidth
    ensures r.lanes[lane] == Without(b.lanes[lane], id) && (r.lanes[lane] == [] ==> r.tracks[lane] == Idle)
    ensures forall j :: 0 <= j < |b.lanes| && j != lane ==> r.lanes[j] == b.lanes[j] && r.tracks[j] == b.tracks[j]
  {
    var rest := Without(b.lanes[lane], id);
    Board(if rest == [] then b.tracks[lane := Idle] else b.tracks, b.lanes[lane := rest], b.queue, b.lastWidth)
  }

  /**
   * Releasing removes every fragment with the id from that lane and nothing
   * else, and keeps the invariant: the lane turns idle exactly when its list
   * is left empty.
   */
  lemma ReleaseKeepsInvariant(c: Config, b: Board, lane: nat, id: nat)
    requires Invariant(c, b) && lane < |b.lanes|
    ensures var r := Release(b, lane, id);
      && Invariant(c, r)
      && r.lanes[lane] == Without(b.lanes[lane], id)
      && (r.tracks[lane] == Idle <==> r.lanes[lane] == [])
      && (forall j :: 0 <= j < |b.lanes| && j != lane ==> r.lanes[j] == b.lanes[j] && r.tracks[j] == b.tracks[j])
  {
  }

  /** Releasing the same fragment again is a no-op. */
  lemma ReleaseIdempotent(b: Board, lane: nat, id: nat)
    requires WellFormed(b) && lane < |b.lanes|
    ensures Release(Release(b, lane, id), lane, id) == Release(b, lane, id)
  {
    WithoutIdempotent(b.lanes[lane], id);
  }

  /**
   * `getBarragerList`'s fold: each lane in turn is put in front of what has
   * been gathered so far, so the accumulator ends up last and the last lane first.
   */
  function Flatten(lanes: seq<seq<Fragment>>, acc: seq<Fragment>): (r: seq<Fragment>)
    ensures |r| >= |acc| && r[|r| - |acc|..] == acc
    ensures |lanes| > 0 ==> lanes[|lanes| - 1] <= r
  {
    if lanes == [] then acc else Flatten(lanes[1..], lanes[0] + acc)
  }

  /** Each later lane's fragments come before the earlier lanes' fragments. */
  lemma {:induction false} FlattenAppendLane(lanes: seq<seq<Fragment>>, lane: seq<Fragment>, acc: seq<Fragment>)
    ensures Flatten(lanes + [lane], acc) == lane + Flatten(lanes, acc)
  {
    var all := lanes + [lane];
    if lanes == [] {
      assert all == [lane] && all[1..] == [];
      assert Flatten(all, acc) == Flatten([], lane + acc);
    } else {
      assert all[0] == lanes[0] && all[1..] == lanes[1..] + [lane];
      assert Flatten(all, acc) == Flatten(lanes[1..] + [lane], lanes[0] + acc);
      FlattenAppendLane(lanes[1..], lane, lanes[0] + acc);
    }
  }

  /** The flattened list holds every fragment of every lane, each as many times as the lanes do. */
  lemma {:induction false} FlattenContents(lanes: seq<seq<Fragment>>, acc: seq<Fragment>)
    ensures multiset(Flatten(lanes, acc)) == multiset(acc) + LanesMultiset(lanes)
  {
    if lanes != [] {
      FlattenContents(lanes[1..], lanes[0] + acc);
      assert lanes == [lanes[0]] + lanes[1..];
      LanesMultisetSplit([lanes[0]], lanes[1..]);
    }
  }

  /** A fragment is in the flattened list exactly when some lane holds it. */
  lemma FlattenMembership(lanes: seq<seq<Fragment>>, f: Fragment)
    ensures f in Flatten(lanes, []) <==> exists i :: 0 <= i < |lanes| && f in lanes[i]
  {
    FlattenContents(lanes, []);
    LanesMultisetMembership(lanes, f);
    assert multiset(Flatten(lanes, [])) == LanesMultiset(lanes);
    assert f in Flatten(lanes, []) <==> f in multiset(Flatten(lanes, []));
  }

  /** All fragments of all lanes. */
  ghost function LanesMultiset(lanes: seq<seq<Fragment>>): multiset<Fragment> {
    if lanes == [] then multiset{} else multiset(lanes[0]) + LanesMultiset(lanes[1..])
  }

  lemma {:induction false} LanesMultisetSplit(s: seq<seq<Fragment>>, t: seq<seq<Fragment>>)
    ensures LanesMultiset(s + t) == LanesMultiset(s) + LanesMultiset(t)
  {
    if s == [] {
      assert s + t == t;
    } else {
      var st := s + t;
      assert st[0] == s[0] && st[1..] == s[1..] + t;
      LanesMultisetSplit(s[1..], t);
    }
  }

  lemma {:induction false} LanesMultisetMembership(lanes: seq<seq<Fragment>>, f: Fragment)
    ensures f in LanesMultiset(lanes) <==> exists i :: 0 <= i < |lanes| && f in lanes[i]
  {
    if lanes != [] {
      LanesMultisetMembership(lanes[1..], f);
      if f in LanesMultiset(lanes[1..]) {
        var i :| 0 <= i < |lanes[1..]| && f in lanes[1..][i];
        assert f in lanes[i + 1];
      }
      if exists i :: 0 <= i < |lanes| && f in lanes[i] {
        var i :| 0 <= i < |lanes| && f in lanes[i];
        if i > 0 {
          assert f in lanes[1..][i - 1];
        }
      }
    }
  }
}

=== FILE: schedule.dfy ===
/**
 * Admission of a fragment (`push`) and the queue drain that follows every
 * placement (`render`), as functions on the registry value. The two are
 * mutually recursive, as in the source: a placement drains one queued entry
 * by pushing it again, and that push, when it places, drains the next one.
 */
module Schedule {
  import opened Js
  import opened Opts
  import opened Motion
  import opened Registry

  datatype Priority = High | Normal

  /**
   * What one call to `push` observes: the clock reading that becomes the id
   * of every fragment it places (`Date.now()` in milliseconds), and the probe
   * of each lane search it makes, the outer push's first.
   */
  datatype Env = Env(now: nat, probe: nat -> Probe) {
    /** The observations left for the nested push of a drain. */
    function Next(): Env {
      Env(now, (k: nat) => probe(k + 1))
    }
  }

  /** The new registry and what `push` returns: the fragment id, null, or an exception. */
  datatype Outcome = Outcome(board: Board, result: Result<Option<nat>>)

  /** The new registry after `render`, and the exception its nested push threw, if any. */
  datatype Drained = Drained(board: Board, fault: Option<Fault>)

  /** A lane choice that the registry invariant allows: an idle lane to claim or a non-empty lane to reuse. */
  predicate Admissible(b: Board, choice: Choice) {
    && WellFormed(b)
    && !choice.NoLane?
    && choice.lane < |b.lanes|
    && (choice.Claim? ==> b.tracks[choice.lane] == Idle)
    && (choice.Reuse? ==> b.lanes[choice.lane] != [])
  }

  /**
   * Placing a fragment in the chosen lane: the duration is computed first,
   * and only when it can be is the lane claimed, the width recorded and the
   * fragment appended. A missing duration leaves the registry untouched.
   */
  function Place(c: Config, b: Board, choice: Choice, options: Options, width: real, id: nat): (r: Result<Board>)
    requires WellFormed(b) && !choice.NoLane? && choice.lane < |b.lanes|
    ensures r.Err? <==> Duration(options, choice.lane, c.surface.width, width).Err?
    ensures r.Ok? ==>
      var i := choice.lane;
      && WellFormed(r.value) && |r.value.lanes| == |b.lanes|
      && r.value.queue == b.queue && r.value.lastWidth == Some(width)
      && r.value.lanes[i] == b.lanes[i] + [Fragment(id, Duration(options, i, c.surface.width, width).value)]
      && (choice.Claim? ==> r.value.tracks[i] == Running)
      && (choice.Reuse? ==> r.value.tracks[i] == b.tracks[i])
      && forall j :: 0 <= j < |b.lanes| && j != i ==> r.value.lanes[j] == b.lanes[j] && r.value.tracks[j] == b.tracks[j]
  {
    var i := choice.lane;
    match Duration(options, i, c.surface.width, width)
    case Err(f) => Err(f)
    case Ok(d) => Ok(Board(ClaimTracks(b.tracks, Ok(choice)), b.lanes[i := b.lanes[i] + [Fragment(id, d)]], b.queue, Some(width)))
  }

  /** A placement in an admissible lane keeps the registry invariant. */
  lemma PlaceKeepsInvariant(c: Config, b: Board, choice: Choice, options: Options, width: real, id: nat)
    requires Invariant(c, b) && Admissible(b, choice)
    ensures var r := Place(c, b, choice, options, width, id);
      r.Ok? ==> Invariant(c, r.value)
  {
  }

  /**
   * Placing as the source orders it: `getIdleTrackIndex` has already marked a
   * claimed lane running and `barragerInfo` is written before the duration
   * is computed, so a missing duration throws with both writes kept.
   */
  function PlaceAsWritten(c: Config, b: Board, choice: Choice, options: Options, width: real, id: nat): (r: Drained)
    requires WellFormed(b) && !choice.NoLane? && choice.lane < |b.lanes|
    ensures WellFormed(r.board)
  {
    var i := choice.lane;
    var claimed := b.(tracks := ClaimTracks(b.tracks, Ok(choice)), lastWidth := Some(width));
    match Duration(options, i, c.surface.width, width)
    case Err(f) => Drained(claimed, Some(f))
    case Ok(d) => Drained(claimed.(lanes := b.lanes[i := b.lanes[i] + [Fragment(id, d)]]), None)
  }

  /** Wherever the duration can be computed, the corrected placement and the one as written agree. */
  lemma PlaceAgreesWithSource(c: Config, b: Board, choice: Choice, options: Options, width: real, id: nat)
    requires WellFormed(b) && !choice.NoLane? && choice.lane < |b.lanes|
    requires Duration(options, choice.lane, c.surface.width, width).Ok?
    ensures PlaceAsWritten(c, b, choice, options, width, id) == Drained(Place(c, b, choice, options, width, id).value, None)
  {
  }

  /**
   * The source's order strands a lane: on a one-lane surface, pushing with
   * `{ speed: 0, tractArray: [], duration: undefined }` claims lane 0 and then
   * throws, leaving lane 0 running with no fragment. No release will ever
   * fire for it, and the fallback search skips empty lanes, so the lane is lost.
   */
  lemma PlaceAsWrittenStrandsLane()
    ensures var c := Config(Defaults, Rect(0.0, 800.0, 800.0, 50.0));
      var options := Merge(Defaults, Options(Absent, Defined([]), Absent, Absent, Undefined, Defined(0.0)));
      var b := InitialBoard(1);
      && Invariant(c, b) && Admissible(b, Claim(0))
      && FindLane(c, b, Probe(0, _ => c.surface, 120.0)) == Ok(Claim(0))
      && var r := PlaceAsWritten(c, b, Claim(0), options, 120.0, 7);
         r.fault == Some(DurationMissing) && r.board.tracks[0] == Running && r.board.lanes[0] == [] && !Consistent(r.board)
  {
    var c := Config(Defaults, Rect(0.0, 800.0, 800.0, 50.0));
    var b := InitialBoard(1);
    assert ReadyLanes(b.tracks) == [0] by {
      assert b.tracks[..0] == [];
    }
  }

  /**
   * `push`: merge the options, search for a lane, and then queue a
   * high-priority fragment or drop a normal one when there is none, or place
   * the fragment, drain the queue once and return the fragment's id.
   */
  function PushSpec(c: Config, b: Board, dom: string, opts: Options, prio: Priority, env: Env): (r: Outcome)
    requires WellFormed(b)
    ensures WellFormed(r.board) && |r.board.lanes| == |b.lanes|
    ensures |r.board.queue| <= |b.queue| + 1
    ensures r.result.Ok? && r.result.value.Some? ==> r.result.value.value == env.now
    decreases |b.queue|, 1
  {
    var options := Merge(c.options, opts);
    var p := env.probe(0);
    var found := FindLane(c, b, p);
    if found.Err? then Outcome(b, Err(found.fault))
    else if found.value.NoLane? then
      if prio == High then Outcome(b.(queue := b.queue + [Entry(dom, options)]), Ok(None))
      else Outcome(b, Ok(None))
    else
      var placed := Place(c, b, found.value, options, p.width, env.now);
      if placed.Err? then Outcome(b, Err(placed.fault))
      else
        var d := RenderSpec(c, placed.value, env.Next());
        Outcome(d.board, if d.fault.Some? then Err(d.fault.value) else Ok(Some(env.now)))
  }

  /** `render`'s drain: take the head of the queue, if any, and push it again with high priority. */
  function RenderSpec(c: Config, b: Board, env: Env): (r: Drained)
    requires WellFormed(b)
    ensures WellFormed(r.board) && |r.board.lanes| == |b.lanes|
    ensures |r.board.queue| <= |b.queue|
    decreases |b.queue|, 0
  {
    if b.queue == [] then Drained(b, None)
    else
      var head := b.queue[0];
      var o := PushSpec(c, b.(queue := b.queue[1..]), head.dom, head.options, High, env);
      Drained(o.board, if o.result.Err? then Some(o.result.fault) else None)
  }

  /** Every lane search and placement of a push, drains included, keeps the registry invariant. */
  lemma {:induction false} PushKeepsInvariant(c: Config, b: Board, dom: string, opts: Options, prio: Priority, env: Env)
    requires Invariant(c, b)
    ensures var o := PushSpec(c, b, dom, opts, prio, env);
      Invariant(c, o.board) && |o.board.tracks| == |b.tracks|
    decreases |b.queue|, 1
  {
    var options := Merge(c.options, opts);
    var p := env.probe(0);
    var found := FindLane(c, b, p);
    if found.Ok? && found.value.NoLane? && prio == High {
      MergeAbsorbs(c.options, opts);
    } else if found.Ok? && !found.value.NoLane? {
      var placed := Place(c, b, found.value, options, p.width, env.now);
      if placed.Ok? {
        PlaceKeepsInvariant(c, b, found.value, options, p.width, env.now);
        RenderKeepsInvariant(c, placed.value, env.Next());
      }
    }
  }

  lemma {:induction false} RenderKeepsInvariant(c: Config, b: Board, env: Env)
    requires Invariant(c, b)
    ensures var d := RenderSpec(c, b, env);
      Invariant(c, d.board) && |d.board.tracks| == |b.tracks|
    decreases |b.queue|, 0
  {
    if b.queue != [] {
      var head := b.queue[0];
      var rest := b.(queue := b.queue[1..]);
      assert QueueResolved(c, rest.queue);
      PushKeepsInvariant(c, rest, head.dom, head.options, High, env);
    }
  }

  /**
   * The queue after draining: some entries were taken from the head and
   * admitted in order; the last one taken may have failed admission again
   * and gone back at the tail.
   */
  ghost predicate DrainedFrom(q: seq<Entry>, q': seq<Entry>) {
    exists k :: 0 <= k <= |q| && (q' == q[k..] || (0 < k && q' == q[k..] + [q[k - 1]]))
  }

  /** A non-empty queue loses at least its head: `k` starts at 1, not 0. */
  ghost predicate TakesHead(q: seq<Entry>, q': seq<Entry>) {
    q != [] ==> exists k :: 1 <= k <= |q| && (q' == q[k..] || q' == q[k..] + [q[k - 1]])
  }

  /** Draining never lengthens the queue and never invents an entry. */
  lemma DrainNeverLengthens(q: seq<Entry>, q': seq<Entry>)
    requires DrainedFrom(q, q')
    ensures |q'| <= |q| && multiset(q') <= multiset(q)
  {
    var k :| 0 <= k <= |q| && (q' == q[k..] || (0 < k && q' == q[k..] + [q[k - 1]]));
    if q' == q[k..] {
      SuffixWithin(q, k);
    } else {
      RequeueWithin(q, k);
    }
  }

  /** The entries left after taking `k` from the head are entries of the queue. */
  lemma SuffixWithin(q: seq<Entry>, k: nat)
    requires k <= |q|
    ensures multiset(q[k..]) <= multiset(q)
  {
    assert q == q[..k] + q[k..];
  }

  /** Putting the last entry taken back at the tail keeps the entries within the queue's. */
  lemma RequeueWithin(q: seq<Entry>, k: nat)
    requires 0 < k <= |q|
    ensures multiset(q[k..] + [q[k - 1]]) <= multiset(q)
  {
    assert q == q[..k - 1] + [q[k - 1]] + q[k..];
  }

  lemma DrainedFromShift(q: seq<Entry>, q': seq<Entry>)
    requires q != [] && DrainedFrom(q[1..], q')
    ensures DrainedFrom(q, q') && TakesHead(q, q')
  {
    var k :| 0 <= k <= |q[1..]| && (q' == q[1..][k..] || (0 < k && q' == q[1..][k..] + [q[1..][k - 1]]));
    assert q[1..][k..] == q[k + 1..];
    if 0 < k {
      assert q[1..][k - 1] == q[k];
    }
    assert 1 <= k + 1 <= |q| && (q' == q[k + 1..] || (0 < k + 1 && q' == q[k + 1..] + [q[k]]));
  }

  /**
   * The queue after a push: a push that finds no lane appends its own entry
   * at the tail (high priority) or leaves the queue alone (normal priority);
   * any other push only drains.
   */
  lemma {:induction false} PushQueue(c: Config, b: Board, dom: string, opts: Options, prio: Priority, env: Env)
    requires WellFormed(b) && QueueResolved(c, b.queue)
    ensures var o := PushSpec(c, b, dom, opts, prio, env);
      && (o.board.queue == b.queue + [Entry(dom, Merge(c.options, opts))] ==>
            prio == High && o.result == Ok(None))
      && (o.board.queue != b.queue + [Entry(dom, Merge(c.options, opts))] ==> DrainedFrom(b.queue, o.board.queue))
      && (o.result.Ok? && o.result.value.Some? ==> DrainedFrom(b.queue, o.board.queue))
    decreases |b.queue|, 1
  {
    var options := Merge(c.options, opts);
    var p := env.probe(0);
    var found := FindLane(c, b, p);
    var o := PushSpec(c, b, dom, opts, prio, env);
    assert b.queue[0..] == b.queue;
    assert |b.queue + [Entry(dom, options)]| != |b.queue|;
    if found.Ok? && !found.value.NoLane? {
      var placed := Place(c, b, found.value, options, p.width, env.now);
      if placed.Ok? {
        RenderDrains(c, placed.value, env.Next());
        DrainNeverLengthens(b.queue, o.board.queue);
      }
    }
  }

  lemma {:induction false} RenderDrains(c: Config, b: Board, env: Env)
    requires WellFormed(b) && QueueResolved(c, b.queue)
    ensures DrainedFrom(b.queue, RenderSpec(c, b, env).board.queue)
    ensures TakesHead(b.queue, RenderSpec(c, b, env).board.queue)
    decreases |b.queue|, 0
  {
    var q := b.queue;
    if q == [] {
      assert q[0..] == q;
    } else {
      var head := q[0];
      var rest := b.(queue := q[1..]);
      var o := PushSpec(c, rest, head.dom, head.options, High, env);
      PushQueue(c, rest, head.dom, head.options, High, env);
      if o.board.queue == q[1..] + [Entry(head.dom, Merge(c.options, head.options))] {
        assert Merge(c.options, head.options) == head.options;
        assert 1 <= 1 <= |q| && o.board.queue == q[1..] + [q[1 - 1]];
      } else {
        DrainedFromShift(q, o.board.queue);
      }
    }
  }

  /** Between two registries of one surface: every lane list only grows at its end, and running lanes stay running. */
  ghost predicate Grows(b: Board, b': Board) {
    && WellFormed(b) && WellFormed(b') && |b'.lanes| == |b.lanes|
    && forall j :: 0 <= j < |b.lanes| ==> b.lanes[j] <= b'.lanes[j] && (b.tracks[j] == Running ==> b'.tracks[j] == Running)
  }

  /**
   * A push that places returns the id of a fragment appended to the lane the
   * search chose, and like every push it only appends to lane lists and never
   * stops a running lane.
   */
  lemma {:induction false} PushPlacesAtEnd(c: Config, b: Board, dom: string, opts: Options, prio: Priority, env: Env)
    requires WellFormed(b)
    ensures var o := PushSpec(c, b, dom, opts, prio, env);
      && Grows(b, o.board)
      && (o.result.Ok? && o.result.value.Some? ==>
            var options := Merge(c.options, opts);
            var p := env.probe(0);
            var found := FindLane(c, b, p);
            && o.result.value.value == env.now
            && found.Ok? && !found.value.NoLane?
            && var i := found.value.lane;
               var d := Duration(options, i, c.surface.width, p.width);
               d.Ok? && b.lanes[i] + [Fragment(env.now, d.value)] <= o.board.lanes[i])
    decreases |b.queue|, 1
  {
    var options := Merge(c.options, opts);
    var p := env.probe(0);
    var found := FindLane(c, b, p);
    if found.Ok? && !found.value.NoLane? {
      var placed := Place(c, b, found.value, options, p.width, env.now);
      if placed.Ok? {
        RenderOnlyAppends(c, placed.value, env.Next());
        var o := RenderSpec(c, placed.value, env.Next());
        forall j | 0 <= j < |b.lanes|
          ensures b.lanes[j] <= o.board.lanes[j] && (b.tracks[j] == Running ==> o.board.tracks[j] == Running)
        {
          assert b.lanes[j] <= placed.value.lanes[j];
        }
      }
    }
  }

  lemma {:induction false} RenderOnlyAppends(c: Config, b: Board, env: Env)
    requires WellFormed(b)
    ensures Grows(b, RenderSpec(c, b, env).board)
    decreases |b.queue|, 0
  {
    if b.queue != [] {
      var head := b.queue[0];
      PushPlacesAtEnd(c, b.(queue := b.queue[1..]), head.dom, head.options, High, env);
    }
  }

  /**
   * A push that finds no lane changes nothing but the queue: a normal push
   * is dropped without a trace, a high-priority one is appended at the tail
   * with its merged options. Either way it returns null.
   */
  lemma PushWithoutLane(c: Config, b: Board, dom: string, opts: Options, prio: Priority, env: Env)
    requires WellFormed(b) && FindLane(c, b, env.probe(0)) == Ok(NoLane)
    ensures var o := PushSpec(c, b, dom, opts, prio, env);
      && o.result == Ok(None)
      && (prio == Normal ==> o.board == b)
      && (prio == High ==> o.board == b.(queue := b.queue + [Entry(dom, Merge(c.options, opts))]))
  {
  }

  /**
   * A push that finds a lane and can compute the duration places its
   * fragment: the lane's list gains it at its end (later drains only append
   * behind it), a claimed lane is left running, and unless a drained entry
   * throws, the push returns the fragment's id.
   */
  lemma PushPlaces(c: Config, b: Board, dom: string, opts: Options, prio: Priority, env: Env)
    requires WellFormed(b)
    requires var found := FindLane(c, b, env.probe(0));
      found.Ok? && !found.value.NoLane? &&
      Duration(Merge(c.options, opts), found.value.lane, c.surface.width, env.probe(0).width).Ok?
    ensures var o := PushSpec(c, b, dom, opts, prio, env);
      var found := FindLane(c, b, env.probe(0));
      var i := found.value.lane;
      var d := Duration(Merge(c.options, opts), i, c.surface.width, env.probe(0).width).value;
      && b.lanes[i] + [Fragment(env.now, d)] <= o.board.lanes[i]
      && (found.value.Claim? ==> o.board.tracks[i] == Running)
      && (o.result.Ok? ==> o.result == Ok(Some(env.now)))
    ensures var o := PushSpec(c, b, dom, opts, prio, env);
      var found := FindLane(c, b, env.probe(0));
      b.queue == [] ==>
        o.result == Ok(Some(env.now)) &&
        o.board == Place(c, b, found.value, Merge(c.options, opts), env.probe(0).width, env.now).value
    ensures PushSpec(c, b, dom, opts, prio, env).result.Err? ==> b.queue != []
  {
    var options := Merge(c.options, opts);
    var p := env.probe(0);
    var found := FindLane(c, b, p);
    var placed := Place(c, b, found.value, options, p.width, env.now);
    RenderOnlyAppends(c, placed.value, env.Next());
  }

  /** With nothing queued, the drain changes nothing. */
  lemma RenderIdle(c: Config, b: Board, env: Env)
    requires WellFormed(b) && b.queue == []
    ensures RenderSpec(c, b, env) == Drained(b, None)
  {
  }

  /**
   * The drain re-pushes the head of the queue: when the head finds a lane
   * and its duration can be computed, its fragment is placed in that lane.
   */
  lemma RenderPlacesHead(c: Config, b: Board, env: Env)
    requires WellFormed(b) && b.queue != []
    requires var rest := b.(queue := b.queue[1..]);
      var found := FindLane(c, rest, env.probe(0));
      found.Ok? && !found.value.NoLane? &&
      Duration(Merge(c.options, b.queue[0].options), found.value.lane, c.surface.width, env.probe(0).width).Ok?
    ensures var rest := b.(queue := b.queue[1..]);
      var found := FindLane(c, rest, env.probe(0));
      var i := found.value.lane;
      var d := Duration(Merge(c.options, b.queue[0].options), i, c.surface.width, env.probe(0).width).value;
      b.lanes[i] + [Fragment(env.now, d)] <= RenderSpec(c, b, env).board.lanes[i]
    ensures b.queue[1..] == [] ==> RenderSpec(c, b, env).fault == None
  {
    var head := b.queue[0];
    PushPlaces(c, b.(queue := b.queue[1..]), head.dom, head.options, High, env);
  }

  /**
   * The drain re-pushes the head with high priority, so a head that again
   * finds no lane goes back at the tail, with its options merged once more
   * over the instance options, which for a resolved queue are its own.
   */
  lemma RenderRequeuesHead(c: Config, b: Board, env: Env)
    requires WellFormed(b) && b.queue != []
    requires FindLane(c, b.(queue := b.queue[1..]), env.probe(0)) == Ok(NoLane)
    ensures var head := b.queue[0];
      RenderSpec(c, b, env) == Drained(b.(queue := b.queue[1..] + [Entry(head.dom, Merge(c.options, head.options))]), None)
    ensures QueueResolved(c, b.queue) ==> RenderSpec(c, b, env) == Drained(b.(queue := b.queue[1..] + [b.queue[0]]), None)
  {
  }

  /** A push that throws before placing leaves the registry exactly as it was. */
  lemma PushFailsCleanly(c: Config, b: Board, dom: string, opts: Options, prio: Priority, env: Env)
    requires WellFormed(b)
    requires var found := FindLane(c, b, env.probe(0));
      found.Err? ||
      (!found.value.NoLane? && Duration(Merge(c.options, opts), found.value.lane, c.surface.width, env.probe(0).width).Err?)
    ensures var o := PushSpec(c, b, dom, opts, prio, env);
      o.board == b && o.result.Err?
  {
  }
}
